=== FILE: README.md ===
# Event registration backend — Dafny model

A model of the core of *gerenciar-evento*, a Spring backend in which
administrators create, update and delete events that have a capacity
(`maxParticipantes`), users register and unregister for events, and every
request passes a JWT authentication gate and a per-route role check
(ADMIN / USER).

What is modelled, one module per source file or concern:

- `Model` — the `Evento` entity with the fields it declares (`id`, `data`,
  `nome`, `localizacao`, `participantes`, `maxParticipantes`), `isFull()`,
  the id-only equality Lombok generates, the `UsuarioRole` enum with
  `name()`/`valueOf`, and the request/response records.
- `Participants` — the `java.util.List` operations the workflow calls on
  the participant list: `add` (sequence append), `contains` and
  `remove(Object)`, the last two through the list's `indexOf`.
- `EventoService` — event CRUD over an event store `map<EventId, Evento>`
  and the capacity-guarded `registerForEvent` / `unregisterFromEvent` over
  that store and a user store `map<UserId, Usuario>`. Each call returns a
  `Result`: `Err` carries the exception the service throws
  (`EventNotFoundException` or `EventFullException`, with its message), and
  a failed call saves nothing.
- `EventoCrudProps` — how the event CRUD operations relate to each other
  (find after save, update and delete; delete after save) and keep every
  event under its own id.
- `RegistrationProps` — the workflow's properties across calls: error
  precedence, the capacity bound and its preservation over any sequence of
  requests, the register/unregister round trip, duplicates, and how
  `updateEvent` can break the bound.
- `UsuarioService` — `saveUser`, `findById`, `findAll` over the user store,
  with the password encoder as a function parameter.
- `Listing` — the `findAll().stream().map(...)` pattern both services use.
- `JwtRequestFilter` — `recoverToken` on the `Authorization` header and the
  outcome table of `doFilterInternal`, with token verification abstracted
  to `Verified(subject) | Expired | Invalid`.
- `Http`, `AccessPolicy`, `EventoController`, `UsuarioController` — the
  `@PreAuthorize` table as `Allows(route, role)`, the admission decision
  (gate, then role check), and each handler's status mapping
  (`Optional` to 200/404, 201 with Location, 204, 200).

`EventoService.java` as written does not compile: it calls getters and
setters `Evento` does not declare (`getName`, `setDate`,
`getParticipants`, ...), calls an undefined `convertToDTO`, and declares
`converterDTO` twice. There the model gives the evident intent over the
fields `Evento` declares. Everywhere else, where the code departs from its
evident design, the model follows the code:

- The participant list is a list, not a set: `registerForEvent` appends
  without a membership check, so a user can be listed twice
  (`RegistrationProps.RegisterAddsDuplicate`), and `unregisterFromEvent`
  removes only the first entry, so the round trip restores the list only as
  a multiset when the user was already listed
  (`RegistrationProps.RoundTripReordersDuplicate`).
- A missing user is reported with `EventNotFoundException`, not a separate
  user-not-found error.
- `maxParticipantes` is an unvalidated Java `int`; zero or a negative value
  makes every event full.
- Neither `saveEvento` nor `updateEvent` checks the capacity, so the bound
  `|participantes| <= maxParticipantes` holds after every register and
  unregister but not after an update
  (`RegistrationProps.UpdateCanBreakCapacity`), nor after creating an event
  with a negative capacity (`EventoCrudProps.SaveKeepsCapacityIff`).
- The event service's `findById` and `updateEvent` throw on an absent id
  instead of returning an empty `Optional`, so the controller's 404
  branches for `GET`/`PUT /events/{id}` are dead
  (`EventoController.NotFoundIsUnreachable`); the user controller's 404 is
  live because `UsuarioService.findById` does return an empty `Optional`.
- `JwtService.validateToken` already turns an expired or invalid token into
  the same UNAUTHORIZED status and message the filter's catch blocks would
  produce, so the outcome table is the same either way.

## Model

| member | source | states |
|---|---|---|
| Model.RoleNameRoundTrip | gerenciar-evento/src/main/java/org/evento/service/UsuarioService.java:31 | `valueOf(name(r))` gives back `r` for every role, so a non-null role survives `saveUser`'s conversion |
| Model.RoleNamesDistinct | gerenciar-evento/src/main/java/org/evento/model/UsuarioRole.java:5-12 | two roles have the same name (`name()`, hence `getAuthority()`) exactly when they are the same role |
| Model.RoleValueOf | gerenciar-evento/src/main/java/org/evento/model/UsuarioRole.java:5-12 | a parsed role's name is exactly the parsed text; any other text parses to nothing |
| Model.RoleText | gerenciar-evento/src/main/java/org/evento/service/UsuarioService.java:31 | the text of a role parses back to that role, and the text of a null role (`"null"`) parses to nothing |
| Model.IsFull | gerenciar-evento/src/main/java/org/evento/model/Evento.java:29-31 | an event that is not full has a positive capacity and room for one more participant |
| Model.EventoEquals | gerenciar-evento/src/main/java/org/evento/model/Evento.java:15 | two events are equal exactly when one is the other with only date, name, location, participants and capacity changed |
| Model.CapacityEdges | gerenciar-evento/src/main/java/org/evento/model/Evento.java:28-31 | capacity at or below zero makes every event full, even an empty one; a count below the capacity is never full |
| Model.EqualityIgnoresState | gerenciar-evento/src/main/java/org/evento/model/Evento.java:15 | changing the date, name, location, participants or capacity keeps an event equal to what it was |
| Participants.IndexOf | gerenciar-evento/src/main/java/org/evento/service/EventoService.java:110-114 | -1 exactly when no participant has the id; otherwise the position of the first participant with that id |
| Participants.Contains | gerenciar-evento/src/main/java/org/evento/service/EventoService.java:110 | true exactly when some participant carries the id |
| Participants.Remove | gerenciar-evento/src/main/java/org/evento/service/EventoService.java:114 | an unlisted id leaves the list unchanged; a listed one shortens it by exactly one, removes the first matching entry (multiset difference) and keeps the order of the entries before and after it |
| Participants.RemoveOccurrences | gerenciar-evento/src/main/java/org/evento/service/EventoService.java:114 | removal takes away exactly one occurrence of the id, however many there were |
| Participants.IndexOfAppend | gerenciar-evento/src/main/java/org/evento/service/EventoService.java:99-114 | after `add`, the first occurrence of an id is the old one if there was one, else the appended user |
| Participants.RemoveAppendedAbsent | gerenciar-evento/src/main/java/org/evento/service/EventoService.java:99-114 | appending a user whose id was absent and removing that id gives back the original list |
| Participants.RemoveAppendedPresent | gerenciar-evento/src/main/java/org/evento/service/EventoService.java:99-114 | when the id was present, removal takes the earlier entry and the appended user stays last |
| Listing.ListValues | gerenciar-evento/src/main/java/org/evento/service/EventoService.java:40-44 | one converted element per stored entity, each entity listed once, none missing |
| EventoService.ToUserDTOs | gerenciar-evento/src/main/java/org/evento/service/EventoService.java:72-77 | one participant view per participant, in order, with the same id and username |
| EventoService.ConverterDTO | gerenciar-evento/src/main/java/org/evento/service/EventoService.java:72-87 | the response copies id, name, location, date and capacity, and its i-th participant view is the (id, username) of the i-th participant |
| EventoService.SaveEvento | gerenciar-evento/src/main/java/org/evento/service/EventoService.java:30-38 | a new event under the fresh id with the request's fields and no participants; no other event changes; the response describes it |
| EventoService.FindAll | gerenciar-evento/src/main/java/org/evento/service/EventoService.java:40-44 | as many responses as stored events; every response describes a stored event and every stored event is described |
| EventoService.FindById | gerenciar-evento/src/main/java/org/evento/service/EventoService.java:46-50 | fails with "Event not found with id: …" exactly when the id is absent; otherwise always a present response for that event |
| EventoService.UpdateEvent | gerenciar-evento/src/main/java/org/evento/service/EventoService.java:52-62 | fails exactly on an absent id; otherwise overwrites name, date, location and capacity, keeps id and participants, changes no other event |
| EventoService.DeleteById | gerenciar-evento/src/main/java/org/evento/service/EventoService.java:64-70 | fails exactly on an absent id; otherwise removes that key and only that key |
| EventoService.RegisterForEvent | gerenciar-evento/src/main/java/org/evento/service/EventoService.java:89-101 | errors in the order event, capacity, user; success exactly when the event exists, is not full and the user exists; then the user is appended to that event only and the count stays within capacity |
| EventoService.UnregisterFromEvent | gerenciar-evento/src/main/java/org/evento/service/EventoService.java:103-116 | errors in the order event, user, membership, all `EventNotFoundException`; success exactly when the event and user exist and the stored user's id is listed (participants are equal by id); then the first entry with that id is removed from that event only and its list is one shorter |
| EventoCrudProps.CrudKeepsWellKeyed | gerenciar-evento/src/main/java/org/evento/service/EventoService.java:30-70 | saving, updating and deleting keep every event stored under its own id |
| EventoCrudProps.SaveKeepsCapacityIff | gerenciar-evento/src/main/java/org/evento/service/EventoService.java:30-38 | saving into a store within capacity stays within capacity exactly when the requested capacity is not negative: creation checks nothing |
| EventoCrudProps.FindByIdKeepsId | gerenciar-evento/src/main/java/org/evento/service/EventoService.java:46-50 | in a store keyed by id, a found event's response carries the requested id |
| EventoCrudProps.FindAfterSave | gerenciar-evento/src/main/java/org/evento/service/EventoService.java:30-50 | looking up a just-saved event gives the response the save returned |
| EventoCrudProps.DeleteAfterSave | gerenciar-evento/src/main/java/org/evento/service/EventoService.java:30-70 | deleting a just-saved event gives back the original store |
| EventoCrudProps.FindAfterUpdate | gerenciar-evento/src/main/java/org/evento/service/EventoService.java:46-62 | looking up a just-updated event gives the response the update returned |
| EventoCrudProps.NotFoundAfterDelete | gerenciar-evento/src/main/java/org/evento/service/EventoService.java:46-70 | after a delete, lookup, a second delete and update of that id all throw "Event not found with id: …" |
| EventoCrudProps.ToUserDTOsAppend | gerenciar-evento/src/main/java/org/evento/service/EventoService.java:73-77 | the participant views of two concatenated lists are the concatenated views |
| EventoCrudProps.UserViewsAgree | gerenciar-evento/src/main/java/org/evento/service/EventoService.java:135-136 | a participant view shows the same id and username as the user service's response for that user, and two views are equal exactly when the users agree on id and username |
| EventoCrudProps.RegisteredViewAppends | gerenciar-evento/src/main/java/org/evento/service/EventoService.java:72-100 | after a registration the event's response lists the old participant views followed by the new user's |
| RegistrationProps.FullEventRejectsAnyUser | gerenciar-evento/src/main/java/org/evento/service/EventoService.java:89-97 | a full event answers `EventFullException` for every user id, stored or not |
| RegistrationProps.RegisterPreservesCapacity | gerenciar-evento/src/main/java/org/evento/service/EventoService.java:92-100 | if every event is within capacity, it still is after a successful register |
| RegistrationProps.UnregisterPreservesCapacity | gerenciar-evento/src/main/java/org/evento/service/EventoService.java:103-116 | if every event is within capacity, it still is after a successful unregister |
| RegistrationProps.RegisterAddsDuplicate | gerenciar-evento/src/main/java/org/evento/service/EventoService.java:96-99 | registering an already listed user on an event with room succeeds and lists the user once more |
| RegistrationProps.UpdateCanBreakCapacity | gerenciar-evento/src/main/java/org/evento/service/EventoService.java:52-61 | there are stores within capacity that a successful update leaves over capacity |
| RegistrationProps.UpdateKeepsIdentity | gerenciar-evento/src/main/java/org/evento/service/EventoService.java:52-61 | an update on a present id succeeds and the stored event stays equal (by id) to the old one |
| RegistrationProps.RegisterThenUnregisterAbsent | gerenciar-evento/src/main/java/org/evento/service/EventoService.java:89-116 | register then unregister of a user not listed before restores the event store exactly |
| RegistrationProps.RegisterThenUnregisterPresent | gerenciar-evento/src/main/java/org/evento/service/EventoService.java:99-115 | for a user listed before, the round trip succeeds, changes no other event and restores the list as a multiset |
| RegistrationProps.RoundTripReordersDuplicate | gerenciar-evento/src/main/java/org/evento/service/EventoService.java:99-114 | for every event listing `[a, b]` with room, registering `a` again and unregistering it leaves `[b, a]`: the round trip reorders rather than restores |
| RegistrationProps.RegisterKeepsConsistent | gerenciar-evento/src/main/java/org/evento/service/EventoService.java:96-100 | a successful register keeps every listed participant equal to the user stored under its id |
| RegistrationProps.UnregisterKeepsConsistent | gerenciar-evento/src/main/java/org/evento/service/EventoService.java:107-115 | a successful unregister keeps every listed participant equal to the user stored under its id |
| RegistrationProps.ReplayKeepsCapacity | gerenciar-evento/src/main/java/org/evento/service/EventoService.java:89-116 | any sequence of register and unregister requests keeps every event within capacity |
| RegistrationProps.OneSeatScenario | gerenciar-evento/src/main/java/org/evento/service/EventoService.java:89-116 | with one seat: A registers, B is refused as full, A unregisters, B registers |
| UsuarioService.ConvertToDTO | gerenciar-evento/src/main/java/org/evento/service/UsuarioService.java:49-55 | the response carries the user's id and username and a role name that parses back to the user's role |
| UsuarioService.SaveUser | gerenciar-evento/src/main/java/org/evento/service/UsuarioService.java:27-36 | a null role fails with `IllegalArgumentException`; otherwise the user is stored under the fresh id with username, role and the encoded password, no other user changes, and the response carries id, username and role name |
| UsuarioService.FindById | gerenciar-evento/src/main/java/org/evento/service/UsuarioService.java:38-41 | empty exactly when the id is absent (no exception); otherwise the stored user's response |
| UsuarioService.FindByIdKeepsId | gerenciar-evento/src/main/java/org/evento/service/UsuarioService.java:38-41 | in a store keyed by id, a found user's response carries the requested id |
| UsuarioService.FindAfterSave | gerenciar-evento/src/main/java/org/evento/service/UsuarioService.java:27-41 | registering with a role succeeds, looking the new id up gives the response the registration returned, and a store keyed by id stays keyed by id |
| UsuarioService.FindAll | gerenciar-evento/src/main/java/org/evento/service/UsuarioService.java:43-47 | as many responses as stored users; every one describes a stored user and every stored user is described |
| Http.OkOrNotFound | gerenciar-evento/src/main/java/org/evento/controller/EventoController.java:44-47 | 200 with the value exactly when present, 404 with no body otherwise |
| Http.Created | gerenciar-evento/src/main/java/org/evento/controller/EventoController.java:26-32 | 201 with the given body and a Location that is the request path followed by `/` and the id (request path without query string or trailing slash) |
| JwtRequestFilter.RecoverToken | gerenciar-evento/src/main/java/org/evento/security/JwtRequestFilter.java:61-67 | a token exactly when the header is present and starts with `Bearer `, and then the header is that prefix followed by the token |
| JwtRequestFilter.RecoverTokenRoundTrip | gerenciar-evento/src/main/java/org/evento/security/JwtRequestFilter.java:61-64 | `Bearer ` plus any token is read back as that token |
| JwtRequestFilter.RecoverTokenEdges | gerenciar-evento/src/main/java/org/evento/security/JwtRequestFilter.java:62-66 | no header and a lower-case `bearer` give no token; the bare `Bearer ` gives the empty token |
| JwtRequestFilter.DoFilterInternal | gerenciar-evento/src/main/java/org/evento/security/JwtRequestFilter.java:35-59 | no token: continue unauthenticated; expired: 401 "Token expired"; invalid: 401 "Invalid token"; verified and stored: continue authenticated as that user with its role; verified but unknown: 403 "User does not have permission" |
| JwtRequestFilter.ProceedsIff | gerenciar-evento/src/main/java/org/evento/security/JwtRequestFilter.java:38-58 | the chain continues exactly when there is no token or the token verifies to a stored username; every rejection is 401 or 403 |
| JwtRequestFilter.NoTokenSkipsValidation | gerenciar-evento/src/main/java/org/evento/security/JwtRequestFilter.java:38-39 | without a `Bearer ` header the outcome does not depend on the validator |
| JwtRequestFilter.EmptyTokenIsValidated | gerenciar-evento/src/main/java/org/evento/security/JwtRequestFilter.java:39-41 | the bare `Bearer ` header sends the empty token to the validator and takes its verdict |
| JwtRequestFilter.AuthenticatesTokenSubject | gerenciar-evento/src/main/java/org/evento/security/JwtRequestFilter.java:41-48 | an authentication is only set for the user the token names, with that user's role as authority |
| AccessPolicy.PermittedRoles | gerenciar-evento/src/main/java/org/evento/controller/EventoController.java:23-73 | every route admits ADMIN |
| AccessPolicy.Allows | gerenciar-evento/src/main/java/org/evento/controller/EventoController.java:23-73 | a role may call a route exactly when it is ADMIN, or the route is list events, get event, register for event or get user |
| AccessPolicy.Authorized | gerenciar-evento/src/main/java/org/evento/controller/UsuarioController.java:23-44 | a security context passes a route's check exactly when it is authenticated and holds some role the route allows |
| AccessPolicy.RolePolicy | gerenciar-evento/src/main/java/org/evento/controller/EventoController.java:23-73 | ADMIN may call every route; USER exactly list events, get event, register for event and get user; USER may not unregister |
| AccessPolicy.UserRoutePolicy | gerenciar-evento/src/main/java/org/evento/controller/UsuarioController.java:23-44 | registering and listing users are ADMIN only; getting a user is open to ADMIN and USER |
| AccessPolicy.Admit | gerenciar-evento/src/main/java/org/evento/security/JwtRequestFilter.java:38-58 | a request the filter rejects is refused with that very rejection and never reaches a handler; an admitted principal is the one the filter authenticated, carried a bearer token, and has a role the route allows; every authenticated principal whose role the route allows is admitted |
| AccessPolicy.AnonymousNeverAdmitted | gerenciar-evento/src/main/java/org/evento/security/JwtRequestFilter.java:38-39 | a request without a bearer header is denied on every route |
| AccessPolicy.UserTokenAdmission | gerenciar-evento/src/main/java/org/evento/controller/EventoController.java:36-73 | a verified USER token reaches exactly the routes allowed to USER and is denied elsewhere |
| EventoController.CreateEvent | gerenciar-evento/src/main/java/org/evento/controller/EventoController.java:22-33 | the store is the one the service saves (the new event with the request's fields and no participants under the new id, others untouched); 201 with the saved event as body and a Location ending in `/` plus the new id |
| EventoController.GetAllEvents | gerenciar-evento/src/main/java/org/evento/controller/EventoController.java:35-40 | 200 with as many responses as stored events, every stored event among them |
| EventoController.GetEventById | gerenciar-evento/src/main/java/org/evento/controller/EventoController.java:42-48 | fails exactly on an absent id; otherwise the body is the stored event's response |
| EventoController.UpdateEvent | gerenciar-evento/src/main/java/org/evento/controller/EventoController.java:50-56 | fails exactly on an absent id, with the service's not-found error; otherwise the store and the body are the service's: the requested name and capacity, and the event's unchanged participant views |
| EventoController.NotFoundIsUnreachable | gerenciar-evento/src/main/java/org/evento/controller/EventoController.java:44-56 | every response of get and update is 200: the 404 branch cannot be taken |
| EventoController.RegisterForEvent | gerenciar-evento/src/main/java/org/evento/controller/EventoController.java:58-63 | 200 with no body exactly when the service registers, otherwise the service's own error (event, capacity, user in that order), with the service's new store |
| EventoController.DeleteEvent | gerenciar-evento/src/main/java/org/evento/controller/EventoController.java:65-70 | 204 with no body exactly when the id was stored, otherwise the service's not-found error; the store is the service's, without that key and with every other event untouched |
| EventoController.UnregisterFromEvent | gerenciar-evento/src/main/java/org/evento/controller/EventoController.java:72-77 | 200 with no body exactly when the service unregisters, otherwise the service's own error; the store is the service's, so only the first entry of that user goes from that event and the list is one shorter |
| UsuarioController.RegisterUser | gerenciar-evento/src/main/java/org/evento/controller/UsuarioController.java:22-33 | 201 with no body and a Location ending in the new id exactly when a role is given, otherwise the service's `IllegalArgumentException`; the store is the service's: the new user has the requested username and role and the encoded password, other users untouched |
| UsuarioController.GetUserById | gerenciar-evento/src/main/java/org/evento/controller/UsuarioController.java:35-41 | 200 with the user's response exactly when stored, 404 exactly when not; the body is the service's lookup (none on 404) and there is never a Location |
| UsuarioController.GetUsers | gerenciar-evento/src/main/java/org/evento/controller/UsuarioController.java:43-48 | 200 with as many responses as stored users, every stored user among them, each role name a valid role |

## Left out

- `JwtService` (token issuance and verification: HMAC256 signing, the `auth-api` issuer, the 36000-second lifetime, the wall clock) is not modelled: the gate takes the verification verdict as a function parameter.
- Repositories and persistence are maps; the UUID the database generates is a fresh-id parameter that `requires` not to be stored yet, which is the generator's promise.
- The password encoder is an opaque function parameter.
- Spring plumbing is left out: the security context, the servlet filter chain, and the translation of exceptions to HTTP responses (those handlers are not part of this model).
- Http.Created: the Location is the request path followed by `/` and the id; Spring's `fromCurrentRequest()` also keeps a query string and merges a trailing slash, which the model does not reproduce.
- AccessPolicy.Admit: the status of Spring's access-denied path (401 or 403) depends on security configuration that is not part of this model, so it is the abstract `Denied`.
- Spring's `ROLE_` prefix matching of `hasRole` against `getAuthority()` and `Usuario.getAuthorities()` are not part of this model: a user's authorities are its role.
- User equality in `contains`/`remove` is by user id; `Usuario.java` is not part of this model.
- The user lookup by username in the filter is a map from username to user; uniqueness of usernames is the database's constraint.
- Concurrent registrations for the last seat: the service does no locking; this is a persistence concern.
- `LocalDate` is an opaque value.
- A freshly saved event's participant list is null in the source (`converterDTO` reads it as empty); the model uses the empty sequence.
- Null request fields other than the role are not modelled.
- EventoService.FindAll: the order of the list is the repository's iteration order, which the model does not fix; the contract states the count and contents only.
- UsuarioService.FindAll: as above, order not fixed.

=== FILE: access_policy.dfy ===
/** The `@PreAuthorize` annotations of both controllers as one table, and the
    admission decision a request meets: the authentication gate first, then
    the role check of the route. */
module AccessPolicy {
  import opened Common
  import opened Model
  import opened JwtRequestFilter

  /** Every handler of `EventoController` and `UsuarioController`. */
  datatype Route =
    | CreateEvent          // POST   /events
    | ListEvents           // GET    /events
    | GetEvent             // GET    /events/{id}
    | UpdateEvent          // PUT    /events/{id}
    | RegisterForEvent     // POST   /events/{id}/register
    | DeleteEvent          // DELETE /events/{id}
    | UnregisterFromEvent  // DELETE /events/{id}/unregister
    | RegisterUser         // POST   /user/register
    | GetUser              // GET    /user/{id}
    | ListUsers            // GET    /user

  /** The roles named by the route's `hasRole` / `hasAnyRole` expression. */
  function PermittedRoles(route: Route): (roles: set<UsuarioRole>)
    ensures ADMIN in roles
  {
    match route
    case ListEvents | GetEvent | RegisterForEvent | GetUser => {ADMIN, USER}
    case _ => {ADMIN}
  }

  /** `allows(route, role)`: ADMIN everywhere, USER on the four routes that
      read events or users or join an event. */
  predicate Allows(route: Route, role: UsuarioRole): (allowed: bool)
    ensures allowed <==> role == ADMIN || route in {ListEvents, GetEvent, RegisterForEvent, GetUser}
  {
    assert role.ADMIN? || role.USER?;
    role in PermittedRoles(route)
  }

  /** ADMIN may call every route; USER exactly the four read-or-join routes,
      and in particular may not unregister anyone. */
  lemma RolePolicy(route: Route)
    ensures Allows(route, ADMIN)
    ensures Allows(route, USER) <==> route in {ListEvents, GetEvent, RegisterForEvent, GetUser}
    ensures !Allows(UnregisterFromEvent, USER)
  {
  }

  /** The user routes: registering an account and listing accounts are for
      ADMIN only, looking one up is open to USER as well. */
  lemma UserRoutePolicy()
    ensures Allows(RegisterUser, ADMIN) && !Allows(RegisterUser, USER)
    ensures Allows(GetUser, ADMIN) && Allows(GetUser, USER)
    ensures Allows(ListUsers, ADMIN) && !Allows(ListUsers, USER)
  {
  }

  /** The role check against the security context: an anonymous request has
      no authority and is never authorised. */
  predicate Authorized(route: Route, auth: Option<Authentication>): (ok: bool)
    ensures ok <==> auth.Some? && exists r :: r in auth.value.authorities && Allows(route, r)
  {
    var ok := auth.Some? && auth.value.authorities * PermittedRoles(route) != {};
    assert ok <== auth.Some? && exists r :: r in auth.value.authorities && Allows(route, r) by {
      if auth.Some? && exists r :: r in auth.value.authorities && Allows(route, r) {
        var r :| r in auth.value.authorities && Allows(route, r);
        assert r in auth.value.authorities * PermittedRoles(route);
      }
    }
    ok
  }

  /** What happens to a request before the handler runs. `Denied` is Spring's
      access-denied path, whose status the security configuration decides. */
  datatype Admission =
    | Admitted(principal: Usuario)
    | Refused(outcome: FilterOutcome)
    | Denied

  function Admit(route: Route, header: Option<string>, validate: string -> TokenCheck,
                 byUsername: map<string, Usuario>): (a: Admission)
    ensures a.Admitted? ==> Allows(route, a.principal.role) && RecoverToken(header).Some?
    ensures a.Refused? ==> a.outcome.Rejected?
    ensures var out := DoFilterInternal(header, validate, byUsername);
            out.Rejected? ==> a == Refused(out)
    ensures var out := DoFilterInternal(header, validate, byUsername);
            a.Admitted? ==> out.Proceed? && out.authentication.Some? && a.principal == out.authentication.value.principal
    ensures var out := DoFilterInternal(header, validate, byUsername);
            out.Proceed? && out.authentication.Some? && Allows(route, out.authentication.value.principal.role) ==>
              a == Admitted(out.authentication.value.principal)
  {
    match DoFilterInternal(header, validate, byUsername)
    case Rejected(s, m) => Refused(Rejected(s, m))
    case Proceed(auth) =>
      if Authorized(route, auth) then Admitted(auth.value.principal) else Denied
  }

  /** A request without a bearer header never reaches a handler, whatever the
      route. */
  lemma AnonymousNeverAdmitted(route: Route, header: Option<string>, validate: string -> TokenCheck,
                               byUsername: map<string, Usuario>)
    requires RecoverToken(header).None?
    ensures Admit(route, header, validate, byUsername) == Denied
  {
  }

  /** A verified USER token reaches exactly the routes the table grants USER. */
  lemma UserTokenAdmission(route: Route, header: Option<string>, validate: string -> TokenCheck,
                           byUsername: map<string, Usuario>)
    requires RecoverToken(header).Some?
    requires validate(RecoverToken(header).value).Verified?
    requires validate(RecoverToken(header).value).subject in byUsername
    requires byUsername[validate(RecoverToken(header).value).subject].role == USER
    ensures Admit(route, header, validate, byUsername).Admitted? <==> Allows(route, USER)
    ensures !Admit(route, header, validate, byUsername).Admitted? ==> Admit(route, header, validate, byUsername) == Denied
  {
    var u := byUsername[validate(RecoverToken(header).value).subject];
    assert DoFilterInternal(header, validate, byUsername) == Proceed(Some(Authentication(u, {USER})));
    if USER in PermittedRoles(route) {
      assert USER in {USER} * PermittedRoles(route);
    } else {
      assert {USER} * PermittedRoles(route) == {};
    }
  }
}

=== FILE: common.dfy ===
/** Failure-carrying wrappers shared by the whole model: `Option` stands for
    Java's `Optional` (and for a nullable reference), `Result` for a call that
    either returns a value or throws one of the application's exceptions. */
module Common {

  datatype Option<+T> = None | Some(value: T)

  datatype Result<+T, +E> = Ok(value: T) | Err(error: E)
}

=== FILE: evento_controller.dfy ===
/** `EventoController`: each handler calls the event service and maps its
    result to a response; an exception from the service is passed on as the
    `Err` of the result. */
module EventoController {
  import opened Common
  import opened Model
  import opened Http
  import S = EventoService

  /** `createEvent`: 201, the saved event as body, and a Location that ends
      with the new id. */
  function CreateEvent(events: S.EventStore, req: EventoRequest, newId: EventId, requestUri: string)
    : (r: (S.EventStore, ResponseEntity<EventoResponse>))
    requires newId !in events
    ensures r.0 == S.SaveEvento(events, req, newId).0
    ensures r.0.Keys == events.Keys + {newId}
    ensures r.0[newId] == Evento(newId, req.data, req.nome, req.localizacao, [], req.maxParticipantes)
    ensures r.1.status == CREATED
    ensures r.1.body == Some(S.ConverterDTO(r.0[newId])) && r.1.body.value.id == newId
    ensures r.1.location.Some? && EndsWithSegment(r.1.location.value, newId)
  {
    var (s, saved) := S.SaveEvento(events, req, newId);
    (s, Created(requestUri, saved.id, Some(saved)))
  }

  /** `getAllEvents`: 200 with one response per stored event. */
  method GetAllEvents(events: S.EventStore) returns (r: ResponseEntity<seq<EventoResponse>>)
    ensures r.status == OK && r.body.Some? && |r.body.value| == |events|
    ensures forall id :: id in events ==> S.ConverterDTO(events[id]) in r.body.value
  {
    var all := S.FindAll(events);
    r := ResponseEntity(OK, Some(all), None);
  }

  /** `getEventById`: the service's response mapped through `OkOrNotFound`. */
  function GetEventById(events: S.EventStore, id: EventId): (r: Result<ResponseEntity<EventoResponse>, S.ServiceError>)
    ensures r.Err? <==> id !in events
    ensures r.Err? ==> r.error == S.EventNotFound(id)
    ensures r.Ok? ==> r.value.body == Some(S.ConverterDTO(events[id]))
  {
    match S.FindById(events, id)
    case Err(e) => Err(e)
    case Ok(found) => Ok(OkOrNotFound(found))
  }

  /** `updateEvent`: the updated event mapped through `OkOrNotFound`. */
  function UpdateEvent(events: S.EventStore, id: EventId, req: EventoRequest)
    : (r: Result<(S.EventStore, ResponseEntity<EventoResponse>), S.ServiceError>)
    ensures r.Err? <==> id !in events
    ensures r.Err? ==> r.error == S.UpdateEvent(events, id, req).error
    ensures r.Ok? ==> r.value.0 == S.UpdateEvent(events, id, req).value.0
    ensures r.Ok? ==> r.value.1.body == S.UpdateEvent(events, id, req).value.1
    ensures r.Ok? ==> r.value.1.body.Some? && r.value.1.body.value.nome == req.nome
    ensures r.Ok? ==> r.value.1.body.value.maxParticipantes == req.maxParticipantes
    ensures r.Ok? ==> r.value.1.body.value.participantes == S.ToUserDTOs(events[id].participantes)
  {
    match S.UpdateEvent(events, id, req)
    case Err(e) => Err(e)
    case Ok((s, updated)) => Ok((s, OkOrNotFound(updated)))
  }

  /** The 404 branches of `getEventById` and `updateEvent` are dead: the
      service throws on an absent id instead of returning an empty
      `Optional`, so a response, when there is one, is always 200. */
  lemma NotFoundIsUnreachable(events: S.EventStore, id: EventId, req: EventoRequest)
    ensures GetEventById(events, id).Ok? ==> GetEventById(events, id).value.status == OK
    ensures UpdateEvent(events, id, req).Ok? ==> UpdateEvent(events, id, req).value.1.status == OK
  {
  }

  /** `registerForEvent`: 200 with no body whenever the service does not throw. */
  function RegisterForEvent(events: S.EventStore, users: UserStore, id: EventId, userId: UserId)
    : (r: Result<(S.EventStore, ResponseEntity<()>), S.ServiceError>)
    ensures r.Ok? <==> S.RegisterForEvent(events, users, id, userId).Ok?
    ensures r.Err? ==> r.error == S.RegisterForEvent(events, users, id, userId).error
    ensures r.Ok? ==> r.value.1 == ResponseEntity(OK, None, None)
    ensures r.Ok? ==> r.value.0 == S.RegisterForEvent(events, users, id, userId).value
  {
    match S.RegisterForEvent(events, users, id, userId)
    case Err(e) => Err(e)
    case Ok(s) => Ok((s, ResponseEntity(OK, None, None)))
  }

  /** `deleteEvent`: 204 with no body. */
  function DeleteEvent(events: S.EventStore, id: EventId): (r: Result<(S.EventStore, ResponseEntity<()>), S.ServiceError>)
    ensures r.Ok? <==> id in events
    ensures r.Err? ==> r.error == S.DeleteById(events, id).error
    ensures r.Ok? ==> r.value.1.status == NO_CONTENT && r.value.1.body.None?
    ensures r.Ok? ==> r.value.0 == S.DeleteById(events, id).value
    ensures r.Ok? ==> r.value.0.Keys == events.Keys - {id}
  {
    match S.DeleteById(events, id)
    case Err(e) => Err(e)
    case Ok(s) => Ok((s, ResponseEntity(NO_CONTENT, None, None)))
  }

  /** `unregisterFromEvent`: 200 with no body whenever the service does not throw. */
  function UnregisterFromEvent(events: S.EventStore, users: UserStore, id: EventId, userId: UserId)
    : (r: Result<(S.EventStore, ResponseEntity<()>), S.ServiceError>)
    ensures r.Ok? <==> S.UnregisterFromEvent(events, users, id, userId).Ok?
    ensures r.Err? ==> r.error == S.UnregisterFromEvent(events, users, id, userId).error
    ensures r.Ok? ==> r.value.1 == ResponseEntity(OK, None, None)
    ensures r.Ok? ==> r.value.0 == S.UnregisterFromEvent(events, users, id, userId).value
    ensures r.Ok? ==> id in events && id in r.value.0
    ensures r.Ok? ==> |r.value.0[id].participantes| == |events[id].participantes| - 1
  {
    match S.UnregisterFromEvent(events, users, id, userId)
    case Err(e) => Err(e)
    case Ok(s) => Ok((s, ResponseEntity(OK, None, None)))
  }
}

=== FILE: evento_crud_props.dfy ===
/** Properties relating the event CRUD operations to each other and to the
    repository invariant that every event is stored under its own id. */
module EventoCrudProps {
  import opened Common
  import opened Model
  import opened EventoService
  import UsuarioService

  /** Saving, updating and deleting keep every event under its own id. */
  lemma CrudKeepsWellKeyed(events: EventStore, req: EventoRequest, newId: EventId, id: EventId)
    requires WellKeyed(events)
    ensures newId !in events ==> WellKeyed(SaveEvento(events, req, newId).0)
    ensures UpdateEvent(events, id, req).Ok? ==> WellKeyed(UpdateEvent(events, id, req).value.0)
    ensures DeleteById(events, id).Ok? ==> WellKeyed(DeleteById(events, id).value)
  {
  }

  /** In a store keyed by id, a found event's response carries the id asked for. */
  lemma FindByIdKeepsId(events: EventStore, id: EventId)
    requires WellKeyed(events)
    ensures FindById(events, id).Ok? ==> FindById(events, id).value.Some? && FindById(events, id).value.value.id == id
  {
  }

  /** Looking up a just-saved event gives the response the save returned. */
  lemma FindAfterSave(events: EventStore, req: EventoRequest, newId: EventId)
    requires newId !in events
    ensures FindById(SaveEvento(events, req, newId).0, newId) == Ok(Some(SaveEvento(events, req, newId).1))
  {
  }

  /** Deleting a just-saved event gives back the original store. */
  lemma DeleteAfterSave(events: EventStore, req: EventoRequest, newId: EventId)
    requires newId !in events
    ensures DeleteById(SaveEvento(events, req, newId).0, newId) == Ok(events)
  {
    assert SaveEvento(events, req, newId).0 - {newId} == events;
  }

  /** Looking up a just-updated event gives the response the update returned. */
  lemma FindAfterUpdate(events: EventStore, id: EventId, req: EventoRequest)
    requires UpdateEvent(events, id, req).Ok?
    ensures var (s, resp) := UpdateEvent(events, id, req).value;
            FindById(s, id) == Ok(resp)
  {
  }

  /** After a delete the id is gone: looking it up, deleting it again and
      updating it all throw the not-found exception. */
  lemma NotFoundAfterDelete(events: EventStore, id: EventId, req: EventoRequest)
    requires DeleteById(events, id).Ok?
    ensures var s := DeleteById(events, id).value;
            && FindById(s, id) == Err(EventNotFound(id))
            && DeleteById(s, id) == Err(EventNotFound(id))
            && UpdateEvent(s, id, req) == Err(EventNotFound(id))
  {
  }

  /** Creation does not check the capacity either: a new event is within its
      capacity exactly when that capacity is not negative, so saving a
      negative capacity already breaks the bound. */
  lemma SaveKeepsCapacityIff(events: EventStore, req: EventoRequest, newId: EventId)
    requires newId !in events && WithinCapacity(events)
    ensures WithinCapacity(SaveEvento(events, req, newId).0) <==> 0 <= req.maxParticipantes
  {
    var s := SaveEvento(events, req, newId).0;
    if 0 <= req.maxParticipantes {
      forall id | id in s
        ensures |s[id].participantes| <= s[id].maxParticipantes as int
      {
        if id != newId {
          assert s[id] == events[id];
        }
      }
    } else {
      assert |s[newId].participantes| > s[newId].maxParticipantes as int;
    }
  }

  /** An event's participant view and the user service's response show the
      same id and username for a user, and the view determines both. */
  lemma UserViewsAgree(u: Usuario, v: Usuario)
    ensures ToUserDTO(u).id == UsuarioService.ConvertToDTO(u).id
    ensures ToUserDTO(u).username == UsuarioService.ConvertToDTO(u).username
    ensures ToUserDTO(u) == ToUserDTO(v) <==> u.id == v.id && u.username == v.username
  {
  }

  /** The participant views of a concatenation are the concatenated views. */
  lemma {:induction false} ToUserDTOsAppend(a: seq<Usuario>, b: seq<Usuario>)
    ensures ToUserDTOs(a + b) == ToUserDTOs(a) + ToUserDTOs(b)
  {
    if a == [] {
      assert a + b == b;
    } else {
      assert (a + b)[1..] == a[1..] + b;
      ToUserDTOsAppend(a[1..], b);
    }
  }

  /** After a successful registration the event's response lists the same
      participant views as before, followed by the new user's. */
  lemma RegisteredViewAppends(events: EventStore, users: UserStore, eventId: EventId, userId: UserId)
    requires RegisterForEvent(events, users, eventId, userId).Ok?
    ensures ConverterDTO(RegisterForEvent(events, users, eventId, userId).value[eventId]).participantes ==
              ConverterDTO(events[eventId]).participantes + [ToUserDTO(users[userId])]
  {
    ToUserDTOsAppend(events[eventId].participantes, [users[userId]]);
  }
}

=== FILE: evento_service.dfy ===
/** `EventoService`: event CRUD over the event repository and the
    capacity-guarded registration workflow. Repositories are maps from id to
    entity; a failed call leaves the stores as they were, since nothing is
    saved before the exception. */
module EventoService {
  import opened Common
  import opened Model
  import opened Participants
  import Listing

  type EventStore = map<EventId, Evento>

  /** The two exception classes the service throws, each with its message.
      A missing user is reported with `EventNotFoundException` too. */
  datatype ServiceError =
    | EventNotFoundException(message: string)
    | EventFullException(message: string)

  function EventNotFound(id: EventId): ServiceError
  {
    EventNotFoundException("Event not found with id: " + id)
  }

  function UserNotFound(id: UserId): ServiceError
  {
    EventNotFoundException("User not found with id: " + id)
  }

  function NotRegistered(eventId: EventId): ServiceError
  {
    EventNotFoundException("User is not registered for the evento with id: " + eventId)
  }

  const EventFull: ServiceError := EventFullException("Event has reached maximum capacity of participants.")

  /** Repository invariant: every entity is stored under its own id. */
  ghost predicate WellKeyed(events: EventStore)
  {
    forall id :: id in events ==> events[id].id == id
  }

  /** Every stored event is within its capacity. */
  ghost predicate WithinCapacity(events: EventStore)
  {
    forall id :: id in events ==> |events[id].participantes| <= events[id].maxParticipantes as int
  }

  /** The stores agree with each other the way JPA's many-to-many join does:
      every listed participant is the user stored under that id. */
  ghost predicate Consistent(events: EventStore, users: UserStore)
  {
    forall id, i :: id in events && 0 <= i < |events[id].participantes| ==>
      var p := events[id].participantes[i];
      p.id in users && users[p.id] == p
  }

  /** `convertToUserDTO`. */
  function ToUserDTO(u: Usuario): UsuarioDTO
  {
    UsuarioDTO(u.id, u.username)
  }

  /** The participant list of a response: one view per participant, in order. */
  function ToUserDTOs(ps: seq<Usuario>): (ds: seq<UsuarioDTO>)
    ensures |ds| == |ps|
    ensures forall i :: 0 <= i < |ps| ==> ds[i].id == ps[i].id && ds[i].username == ps[i].username
  {
    if ps == [] then [] else [ToUserDTO(ps[0])] + ToUserDTOs(ps[1..])
  }

  /** `converterDTO`: the response copies every field of the event and lists
      its participants as (id, username) views. */
  function ConverterDTO(e: Evento): (r: EventoResponse)
    ensures r.id == e.id && r.nome == e.nome && r.localizacao == e.localizacao
    ensures r.data == e.data && r.maxParticipantes == e.maxParticipantes
    ensures |r.participantes| == |e.participantes|
    ensures forall i :: 0 <= i < |e.participantes| ==> r.participantes[i] == ToUserDTO(e.participantes[i])
  {
    EventoResponse(e.id, e.nome, e.localizacao, e.data, e.maxParticipantes, ToUserDTOs(e.participantes))
  }

  /** `saveEvento`: stores a new event under a fresh id (the repository's
      UUID) with the request's fields and no participants. */
  function SaveEvento(events: EventStore, req: EventoRequest, newId: EventId): (r: (EventStore, EventoResponse))
    requires newId !in events
    ensures r.0.Keys == events.Keys + {newId}
    ensures forall id :: id in events ==> r.0[id] == events[id]
    ensures r.0[newId] == Evento(newId, req.data, req.nome, req.localizacao, [], req.maxParticipantes)
    ensures r.1.id == newId && r.1.nome == req.nome && r.1.participantes == []
    ensures r.1 == ConverterDTO(r.0[newId])
  {
    var e := Evento(newId, req.data, req.nome, req.localizacao, [], req.maxParticipantes);
    (events[newId := e], ConverterDTO(e))
  }

  /** `findAll`: one response per stored event. */
  method FindAll(events: EventStore) returns (rs: seq<EventoResponse>)
    ensures |rs| == |events|
    ensures forall i :: 0 <= i < |rs| ==> exists id :: id in events && rs[i] == ConverterDTO(events[id])
    ensures forall id :: id in events ==> ConverterDTO(events[id]) in rs
  {
    var keys;
    keys, rs := Listing.ListValues(events, ConverterDTO);
    forall id | id in events
      ensures ConverterDTO(events[id]) in rs
    {
      var i :| 0 <= i < |keys| && keys[i] == id;
      assert rs[i] == ConverterDTO(events[id]);
    }
  }

  /** `findById`: an absent id throws instead of returning an empty
      `Optional`, so a successful call always carries a response. */
  function FindById(events: EventStore, id: EventId): (r: Result<Option<EventoResponse>, ServiceError>)
    ensures r.Err? <==> id !in events
    ensures r.Err? ==> r.error == EventNotFound(id)
    ensures r.Ok? ==> r.value == Some(ConverterDTO(events[id]))
  {
    if id in events then Ok(Some(ConverterDTO(events[id]))) else Err(EventNotFound(id))
  }

  /** `updateEvent`: replaces name, date, location and capacity, keeps the id
      and the participant list, and does not look at the capacity again. */
  function UpdateEvent(events: EventStore, id: EventId, req: EventoRequest)
    : (r: Result<(EventStore, Option<EventoResponse>), ServiceError>)
    ensures r.Err? <==> id !in events
    ensures r.Err? ==> r.error == EventNotFound(id)
    ensures r.Ok? ==>
              var (s, resp) := r.value;
              && s.Keys == events.Keys
              && (forall k :: k in events && k != id ==> s[k] == events[k])
              && s[id].id == events[id].id
              && s[id].participantes == events[id].participantes
              && s[id].nome == req.nome && s[id].data == req.data
              && s[id].localizacao == req.localizacao && s[id].maxParticipantes == req.maxParticipantes
              && resp == Some(ConverterDTO(s[id]))
  {
    if id !in events then Err(EventNotFound(id))
    else
      var e := events[id].(nome := req.nome, data := req.data, localizacao := req.localizacao,
                           maxParticipantes := req.maxParticipantes);
      Ok((events[id := e], Some(ConverterDTO(e))))
  }

  /** `deleteById`: removes exactly that key, or throws when it is absent. */
  function DeleteById(events: EventStore, id: EventId): (r: Result<EventStore, ServiceError>)
    ensures r.Err? <==> id !in events
    ensures r.Err? ==> r.error == EventNotFound(id)
    ensures r.Ok? ==> r.value.Keys == events.Keys - {id}
    ensures r.Ok? ==> forall k :: k in r.value ==> r.value[k] == events[k]
  {
    if id in events then Ok(events - {id}) else Err(EventNotFound(id))
  }

  /** `registerForEvent`: checks the event, then its capacity, then the user,
      and appends the user to the participant list without asking whether the
      user is already listed. */
  function RegisterForEvent(events: EventStore, users: UserStore, eventId: EventId, userId: UserId)
    : (r: Result<EventStore, ServiceError>)
    ensures eventId !in events ==> r == Err(EventNotFound(eventId))
    ensures eventId in events && IsFull(events[eventId]) ==> r == Err(EventFull)
    ensures eventId in events && !IsFull(events[eventId]) && userId !in users ==> r == Err(UserNotFound(userId))
    ensures r.Ok? <==> eventId in events && !IsFull(events[eventId]) && userId in users
    ensures r.Ok? ==>
              && r.value.Keys == events.Keys
              && (forall k :: k in events && k != eventId ==> r.value[k] == events[k])
              && r.value[eventId] == events[eventId].(participantes := events[eventId].participantes + [users[userId]])
    ensures r.Ok? ==> |r.value[eventId].participantes| <= r.value[eventId].maxParticipantes as int
  {
    if eventId !in events then Err(EventNotFound(eventId))
    else if IsFull(events[eventId]) then Err(EventFull)
    else if userId !in users then Err(UserNotFound(userId))
    else
      var e := events[eventId];
      Ok(events[eventId := e.(participantes := e.participantes + [users[userId]])])
  }

  /** `unregisterFromEvent`: checks the event, then the user, then the
      membership, and removes the first entry equal to the stored user, that
      is, the first entry carrying the stored user's id. */
  function UnregisterFromEvent(events: EventStore, users: UserStore, eventId: EventId, userId: UserId)
    : (r: Result<EventStore, ServiceError>)
    ensures eventId !in events ==> r == Err(EventNotFound(eventId))
    ensures eventId in events && userId !in users ==> r == Err(UserNotFound(userId))
    ensures eventId in events && userId in users && !Contains(events[eventId].participantes, users[userId].id) ==>
              r == Err(NotRegistered(eventId))
    ensures r.Err? ==> r.error.EventNotFoundException?
    ensures r.Ok? <==> eventId in events && userId in users && Contains(events[eventId].participantes, users[userId].id)
    ensures r.Ok? ==>
              && r.value.Keys == events.Keys
              && (forall k :: k in events && k != eventId ==> r.value[k] == events[k])
              && r.value[eventId] == events[eventId].(participantes := Remove(events[eventId].participantes, users[userId].id))
              && |r.value[eventId].participantes| == |events[eventId].participantes| - 1
  {
    if eventId !in events then Err(EventNotFound(eventId))
    else if userId !in users then Err(UserNotFound(userId))
    else
      var user := users[userId];
      if !Contains(events[eventId].participantes, user.id) then Err(NotRegistered(eventId))
      else
        var e := events[eventId];
        Ok(events[eventId := e.(participantes := Remove(e.participantes, user.id))])
  }
}

=== FILE: http.dfy ===
/** The slice of Spring's `ResponseEntity` the controllers use. */
module Http {
  import opened Common

  datatype HttpStatus = OK | CREATED | NO_CONTENT | UNAUTHORIZED | FORBIDDEN | NOT_FOUND
  {
    function Code(): int
    {
      match this
      case OK => 200
      case CREATED => 201
      case NO_CONTENT => 204
      case UNAUTHORIZED => 401
      case FORBIDDEN => 403
      case NOT_FOUND => 404
    }
  }

  datatype ResponseEntity<+T> = ResponseEntity(status: HttpStatus, body: Option<T>, location: Option<string>)

  /** `optional.map(ResponseEntity::ok).orElse(ResponseEntity.notFound().build())`. */
  function OkOrNotFound<T>(o: Option<T>): (r: ResponseEntity<T>)
    ensures r.status == OK <==> o.Some?
    ensures r.status != OK ==> r.status == NOT_FOUND
    ensures r.body == o && r.location.None?
  {
    match o
    case Some(v) => ResponseEntity(OK, Some(v), None)
    case None => ResponseEntity(NOT_FOUND, None, None)
  }

  /** `s` ends with `/` followed by `id`. */
  predicate EndsWithSegment(s: string, id: string)
  {
    |s| > |id| && s[|s| - |id| - 1] == '/' && s[|s| - |id|..] == id
  }

  /** `ResponseEntity.created(fromCurrentRequest().path("/{id}").buildAndExpand(id))`:
      201 with a Location whose last path segment is the new id. */
  function Created<T>(requestUri: string, id: string, body: Option<T>): (r: ResponseEntity<T>)
    ensures r.status == CREATED && r.body == body
    ensures r.location.Some? && EndsWithSegment(r.location.value, id)
    ensures requestUri <= r.location.value
  {
    var loc := requestUri + "/" + id;
    assert loc[|loc| - |id|..] == id;
    ResponseEntity(CREATED, body, Some(loc))
  }
}

=== FILE: jwt_request_filter.dfy ===
/** `JwtRequestFilter`: the per-request authentication gate. Token
    verification (HMAC signature, issuer, expiry) is an abstract function
    passed in by the caller; the user repository's lookup by username is a
    map from username to user. */
module JwtRequestFilter {
  import opened Common
  import opened Model
  import opened Http

  /** The header prefix, case-sensitive, with its trailing space. */
  const BearerPrefix: string := "Bearer "

  /** What verifying a token can come to: its subject, or one of the two
      failures the filter tells apart. */
  datatype TokenCheck = Verified(subject: string) | Expired | Invalid

  /** What the filter stores in the security context. */
  datatype Authentication = Authentication(principal: Usuario, authorities: set<UsuarioRole>)

  /** Either the chain goes on (with or without an authentication) or the
      request is rejected with a status and message. */
  datatype FilterOutcome =
    | Proceed(authentication: Option<Authentication>)
    | Rejected(status: HttpStatus, message: string)

  /** `recoverToken`: the header without its first seven characters when it
      starts with `Bearer `; nothing otherwise. */
  function RecoverToken(header: Option<string>): (token: Option<string>)
    ensures token.Some? <==> header.Some? && BearerPrefix <= header.value
    ensures token.Some? ==> header.value == BearerPrefix + token.value
  {
    if header.Some? && |header.value| >= 7 && header.value[..7] == BearerPrefix then
      assert header.value == header.value[..7] + header.value[7..];
      Some(header.value[7..])
    else None
  }

  /** A header built as `Bearer ` plus a token gives that token back. */
  lemma RecoverTokenRoundTrip(token: string)
    ensures RecoverToken(Some(BearerPrefix + token)) == Some(token)
  {
    var h := BearerPrefix + token;
    assert h[..7] == BearerPrefix;
    assert h[7..] == token;
  }

  /** The edge cases of the prefix test: an absent header, the prefix in
      another case, and a header that is the bare prefix, which yields an
      empty token rather than none. */
  lemma RecoverTokenEdges()
    ensures RecoverToken(None) == None
    ensures RecoverToken(Some("bearer abc")) == None
    ensures RecoverToken(Some("Bearer")) == None
    ensures RecoverToken(Some("Bearer ")) == Some("")
  {
    assert "bearer abc"[..7] != BearerPrefix by {
      assert "bearer abc"[0] == 'b';
    }
  }

  /** The authorities of a user: its role. */
  function Authorities(u: Usuario): set<UsuarioRole>
  {
    {u.role}
  }

  /** `doFilterInternal`. */
  function DoFilterInternal(header: Option<string>, validate: string -> TokenCheck, byUsername: map<string, Usuario>)
    : (out: FilterOutcome)
    ensures RecoverToken(header).None? ==> out == Proceed(None)
    ensures RecoverToken(header).Some? ==>
              match validate(RecoverToken(header).value)
              case Expired => out == Rejected(UNAUTHORIZED, "Token expired")
              case Invalid => out == Rejected(UNAUTHORIZED, "Invalid token")
              case Verified(name) =>
                if name in byUsername then
                  out == Proceed(Some(Authentication(byUsername[name], Authorities(byUsername[name]))))
                else out == Rejected(FORBIDDEN, "User does not have permission")
  {
    match RecoverToken(header)
    case None => Proceed(None)
    case Some(token) =>
      match validate(token)
      case Expired => Rejected(UNAUTHORIZED, "Token expired")
      case Invalid => Rejected(UNAUTHORIZED, "Invalid token")
      case Verified(username) =>
        if username in byUsername then
          var u := byUsername[username];
          Proceed(Some(Authentication(u, Authorities(u))))
        else Rejected(FORBIDDEN, "User does not have permission")
  }

  /** The chain continues exactly when there is no token, or the token
      verifies to a stored username; every rejection is 401 or 403. */
  lemma ProceedsIff(header: Option<string>, validate: string -> TokenCheck, byUsername: map<string, Usuario>)
    ensures var out := DoFilterInternal(header, validate, byUsername);
            var t := RecoverToken(header);
            && (out.Proceed? <==>
                  t.None? || (validate(t.value).Verified? && validate(t.value).subject in byUsername))
            && (out.Rejected? ==> out.status.Code() == 401 || out.status.Code() == 403)
  {
  }

  /** Without a usable header the validator is never consulted: any two
      validators give the same outcome. */
  lemma NoTokenSkipsValidation(header: Option<string>, v1: string -> TokenCheck, v2: string -> TokenCheck,
                               byUsername: map<string, Usuario>)
    requires header.None? || !(BearerPrefix <= header.value)
    ensures DoFilterInternal(header, v1, byUsername) == DoFilterInternal(header, v2, byUsername)
  {
  }

  /** A bare `Bearer ` header still goes to the validator, with the empty token. */
  lemma EmptyTokenIsValidated(validate: string -> TokenCheck, byUsername: map<string, Usuario>)
    ensures validate("") == Invalid ==>
              DoFilterInternal(Some("Bearer "), validate, byUsername) == Rejected(UNAUTHORIZED, "Invalid token")
    ensures validate("") == Expired ==>
              DoFilterInternal(Some("Bearer "), validate, byUsername) == Rejected(UNAUTHORIZED, "Token expired")
  {
    RecoverTokenEdges();
  }

  /** When the username index is keyed by username, an authentication is only
      ever set for the user the token names. */
  lemma AuthenticatesTokenSubject(header: Option<string>, validate: string -> TokenCheck, byUsername: map<string, Usuario>)
    requires forall n :: n in byUsername ==> byUsername[n].username == n
    ensures var out := DoFilterInternal(header, validate, byUsername);
            out.Proceed? && out.authentication.Some? ==>
              && RecoverToken(header).Some?
              && validate(RecoverToken(header).value) == Verified(out.authentication.value.principal.username)
              && out.authentication.value.authorities == {out.authentication.value.principal.role}
  {
  }
}

=== FILE: listing.dfy ===
/** `repository.findAll().stream().map(convert).collect(toList())`: one
    converted element per stored entity, in the repository's (unspecified)
    iteration order. */
module Listing {

  /** Lists every entry of `m` once, converted by `f`. `keys` records which
      stored entity each element of `rs` came from. */
  method ListValues<K, V, R>(m: map<K, V>, f: V -> R) returns (keys: seq<K>, rs: seq<R>)
    ensures |keys| == |rs| == |m|
    ensures forall i :: 0 <= i < |keys| ==> keys[i] in m && rs[i] == f(m[keys[i]])
    ensures forall i, j :: 0 <= i < j < |keys| ==> keys[i] != keys[j]
    ensures forall k :: k in m ==> k in keys
  {
    keys, rs := [], [];
    var rest := m.Keys;
    while rest != {}
      invariant rest <= m.Keys
      invariant |keys| == |rs|
      invariant |keys| + |rest| == |m|
      invariant forall i :: 0 <= i < |keys| ==> keys[i] in m && keys[i] !in rest && rs[i] == f(m[keys[i]])
      invariant forall i, j :: 0 <= i < j < |keys| ==> keys[i] != keys[j]
      invariant forall k :: k in m ==> k in rest || k in keys
      decreases |rest|
    {
      var k :| k in rest;
      keys, rs := keys + [k], rs + [f(m[k])];
      rest := rest - {k};
    }
  }
}

=== FILE: model.dfy ===
/** The entities and the plain records (requests, responses, the role enum)
    of the event-management backend. */
module Model {
  import opened Common

  type EventId = string
  type UserId = string

  /** Java's `int`: the type of `maxParticipantes`, which nothing validates. */
  newtype Int32 = x: int | -0x8000_0000 <= x < 0x8000_0000

  /** The role enum; `getAuthority()` is the constant's name. */
  datatype UsuarioRole = ADMIN | USER

  /** `Enum.name()`. */
  function RoleName(r: UsuarioRole): string
  {
    match r
    case ADMIN => "ADMIN"
    case USER => "USER"
  }

  /** `UsuarioRole.valueOf(s)`: an exact, case-sensitive match of a constant's
      name; any other text (`IllegalArgumentException` in Java) is `None`. */
  function RoleValueOf(s: string): (r: Option<UsuarioRole>)
    ensures r.Some? ==> RoleName(r.value) == s
  {
    if s == "ADMIN" then Some(ADMIN)
    else if s == "USER" then Some(USER)
    else None
  }

  /** Every role's name parses back to that role, so `valueOf(name())` is the
      identity on roles. */
  lemma RoleNameRoundTrip(r: UsuarioRole)
    ensures RoleValueOf(RoleName(r)) == Some(r)
  {
  }

  /** The name identifies the role: `getAuthority()` and a response's role
      text never confuse the two constants. */
  lemma RoleNamesDistinct(a: UsuarioRole, b: UsuarioRole)
    ensures RoleName(a) == RoleName(b) <==> a == b
  {
  }

  /** `String.valueOf(role)` on a possibly-null enum reference: parsing the
      text back gives the role, and the text of a null role parses to nothing. */
  function RoleText(role: Option<UsuarioRole>): (t: string)
    ensures RoleValueOf(t) == role
  {
    match role
    case Some(r) => RoleNameRoundTrip(r); RoleName(r)
    case None => "null"
  }

  /** A stored account. The password field holds whatever the encoder produced. */
  datatype Usuario = Usuario(id: UserId, username: string, password: string, role: UsuarioRole)

  /** The user repository, shared by both services. */
  type UserStore = map<UserId, Usuario>

  /** Repository invariant: every user is stored under its own id. */
  ghost predicate UsersWellKeyed(users: UserStore)
  {
    forall id :: id in users ==> users[id].id == id
  }

  /** `LocalDate`, kept opaque: the model never computes with dates. */
  datatype LocalDate = LocalDate(epochDay: int)

  /** The event entity with the fields `Evento` declares. A participant list
      that JPA would leave null is the empty sequence here. */
  datatype Evento = Evento(
    id: EventId,
    data: LocalDate,
    nome: string,
    localizacao: string,
    participantes: seq<Usuario>,
    maxParticipantes: Int32)

  /** `Evento.isFull()`: the participant count has reached the capacity. An
      event that is not full has a positive capacity and room for one more
      participant. */
  predicate IsFull(e: Evento): (full: bool)
    ensures !full ==> 0 < e.maxParticipantes
    ensures !full ==> |e.participantes| + 1 <= e.maxParticipantes as int
  {
    |e.participantes| >= e.maxParticipantes as int
  }

  /** Lombok's `@EqualsAndHashCode(of = "id")`: two events are equal exactly
      when they differ in nothing but their state (date, name, location,
      participants, capacity). */
  predicate EventoEquals(a: Evento, b: Evento): (eq: bool)
    ensures eq <==> a == b.(data := a.data, nome := a.nome, localizacao := a.localizacao,
                            participantes := a.participantes, maxParticipantes := a.maxParticipantes)
  {
    a.id == b.id
  }

  /** Since the capacity is never validated, a capacity of zero or less makes
      every event full, even one without participants; below a positive
      capacity an event is never full. */
  lemma CapacityEdges(e: Evento)
    ensures e.maxParticipantes <= 0 ==> IsFull(e)
    ensures |e.participantes| < e.maxParticipantes as int ==> !IsFull(e)
  {
  }

  /** Equality looks at the id alone: any change to the other fields leaves an
      event equal to what it was. */
  lemma EqualityIgnoresState(a: Evento, data: LocalDate, nome: string, localizacao: string,
                             participantes: seq<Usuario>, max: Int32)
    ensures EventoEquals(a, a.(data := data, nome := nome, localizacao := localizacao,
                              participantes := participantes, maxParticipantes := max))
  {
  }

  /** The request body of `POST /events` and `PUT /events/{id}`. */
  datatype EventoRequest = EventoRequest(nome: string, localizacao: string, data: LocalDate, maxParticipantes: Int32)

  /** The request body of `POST /user/register`; a missing role is `None`. */
  datatype RegistroRequest = RegistroRequest(username: string, password: string, role: Option<UsuarioRole>)

  /** The participant view inside an event response. */
  datatype UsuarioDTO = UsuarioDTO(id: UserId, username: string)

  datatype EventoResponse = EventoResponse(
    id: EventId,
    nome: string,
    localizacao: string,
    data: LocalDate,
    maxParticipantes: Int32,
    participantes: seq<UsuarioDTO>)

  datatype UsuarioResponse = UsuarioResponse(id: UserId, username: string, role: string)
}

=== FILE: participants.dfy ===
/** The operations `registerForEvent` and `unregisterFromEvent` perform on an
    event's participant list, a `java.util.List<Usuario>`: `contains`,
    `remove(Object)` (through `indexOf`) and `add`. Users compare equal by id. */
module Participants {
  import opened Model

  /** `List.indexOf`: the position of the first participant with the given
      id, or -1 when none has it. */
  function IndexOf(ps: seq<Usuario>, uid: UserId): (i: int)
    ensures -1 <= i < |ps|
    ensures i == -1 <==> forall j :: 0 <= j < |ps| ==> ps[j].id != uid
    ensures 0 <= i ==> ps[i].id == uid && forall j :: 0 <= j < i ==> ps[j].id != uid
  {
    if ps == [] then -1
    else if ps[0].id == uid then 0
    else
      var k := IndexOf(ps[1..], uid);
      if k == -1 then -1 else k + 1
  }

  /** `List.contains`: some participant carries the id. */
  predicate Contains(ps: seq<Usuario>, uid: UserId): (c: bool)
    ensures c <==> exists i :: 0 <= i < |ps| && ps[i].id == uid
  {
    IndexOf(ps, uid) >= 0
  }

  /** How many participants carry the given id. */
  function Occurrences(ps: seq<Usuario>, uid: UserId): (n: nat)
    ensures n <= |ps|
  {
    if ps == [] then 0
    else (if ps[0].id == uid then 1 else 0) + Occurrences(ps[1..], uid)
  }

  /** `List.remove(Object)`: drops the first participant with the given id
      and keeps the order of the rest; a list without that id is unchanged. */
  function Remove(ps: seq<Usuario>, uid: UserId): (qs: seq<Usuario>)
    ensures !Contains(ps, uid) ==> qs == ps
    ensures Contains(ps, uid) ==> |qs| == |ps| - 1
    ensures Contains(ps, uid) ==>
              multiset(qs) + multiset{ps[IndexOf(ps, uid)]} == multiset(ps)
    ensures Contains(ps, uid) ==>
              && qs[..IndexOf(ps, uid)] == ps[..IndexOf(ps, uid)]
              && qs[IndexOf(ps, uid)..] == ps[IndexOf(ps, uid) + 1..]
  {
    var i := IndexOf(ps, uid);
    if i < 0 then ps
    else
      assert ps == ps[..i] + [ps[i]] + ps[i + 1..];
      ps[..i] + ps[i + 1..]
  }

  /** Exactly one participant with the id goes away, whatever the number of
      times the id is listed. */
  lemma RemoveOccurrences(ps: seq<Usuario>, uid: UserId)
    requires Contains(ps, uid)
    ensures Occurrences(Remove(ps, uid), uid) == Occurrences(ps, uid) - 1
  {
    var i := IndexOf(ps, uid);
    assert ps == ps[..i] + ([ps[i]] + ps[i + 1..]);
    OccurrencesAppend(ps[..i], [ps[i]] + ps[i + 1..], uid);
    OccurrencesAppend([ps[i]], ps[i + 1..], uid);
    OccurrencesAppend(ps[..i], ps[i + 1..], uid);
    OccurrencesNone(ps[..i], uid);
  }

  /** Counting distributes over concatenation. */
  lemma {:induction false} OccurrencesAppend(a: seq<Usuario>, b: seq<Usuario>, uid: UserId)
    ensures Occurrences(a + b, uid) == Occurrences(a, uid) + Occurrences(b, uid)
  {
    if a == [] {
      assert a + b == b;
    } else {
      assert (a + b)[1..] == a[1..] + b;
      OccurrencesAppend(a[1..], b, uid);
    }
  }

  /** A prefix that holds no participant with the id counts none. */
  lemma {:induction false} OccurrencesNone(a: seq<Usuario>, uid: UserId)
    requires forall j :: 0 <= j < |a| ==> a[j].id != uid
    ensures Occurrences(a, uid) == 0
  {
    if a != [] {
      OccurrencesNone(a[1..], uid);
    }
  }

  /** Where the first occurrence of an id lies after `add` appends one user. */
  lemma IndexOfAppend(ps: seq<Usuario>, u: Usuario, uid: UserId)
    ensures IndexOf(ps + [u], uid) ==
              if Contains(ps, uid) then IndexOf(ps, uid)
              else if u.id == uid then |ps| else -1
  {
    var qs := ps + [u];
    assert forall j :: 0 <= j < |ps| ==> qs[j] == ps[j];
    assert qs[|ps|] == u;
  }

  /** Appending a user and then removing that user's id gives back the
      original list when the id was absent from it. */
  lemma RemoveAppendedAbsent(ps: seq<Usuario>, u: Usuario)
    requires !Contains(ps, u.id)
    ensures Remove(ps + [u], u.id) == ps
  {
    IndexOfAppend(ps, u, u.id);
    assert (ps + [u])[..|ps|] == ps;
  }

  /** When the id was already listed, the removal takes out the earlier entry
      and the appended one stays at the end. */
  lemma RemoveAppendedPresent(ps: seq<Usuario>, u: Usuario)
    requires Contains(ps, u.id)
    ensures Remove(ps + [u], u.id) == Remove(ps, u.id) + [u]
  {
    IndexOfAppend(ps, u, u.id);
    var i := IndexOf(ps, u.id);
    assert (ps + [u])[..i] == ps[..i];
    assert (ps + [u])[i + 1..] == ps[i + 1..] + [u];
  }
}

=== FILE: registration_props.dfy ===
/** Properties of the registration workflow and of the event CRUD that
    relate several calls or hold over whole stores. */
module RegistrationProps {
  import opened Common
  import opened Model
  import opened Participants
  import opened EventoService

  /** A full event answers "full" for every user id, stored or not: the
      capacity test runs before the user lookup. */
  lemma FullEventRejectsAnyUser(events: EventStore, users: UserStore, eventId: EventId)
    requires eventId in events && IsFull(events[eventId])
    ensures forall userId :: RegisterForEvent(events, users, eventId, userId) == Err(EventFull)
  {
  }

  /** A successful registration keeps every event within its capacity. */
  lemma RegisterPreservesCapacity(events: EventStore, users: UserStore, eventId: EventId, userId: UserId)
    requires WithinCapacity(events)
    ensures RegisterForEvent(events, users, eventId, userId).Ok? ==>
              WithinCapacity(RegisterForEvent(events, users, eventId, userId).value)
  {
  }

  /** So does a successful unregistration: the list only gets shorter. */
  lemma UnregisterPreservesCapacity(events: EventStore, users: UserStore, eventId: EventId, userId: UserId)
    requires WithinCapacity(events)
    ensures UnregisterFromEvent(events, users, eventId, userId).Ok? ==>
              WithinCapacity(UnregisterFromEvent(events, users, eventId, userId).value)
  {
  }

  /** Registering an already listed user on an event with room succeeds and
      lists the user once more. */
  lemma RegisterAddsDuplicate(events: EventStore, users: UserStore, eventId: EventId, userId: UserId)
    requires eventId in events && !IsFull(events[eventId]) && userId in users
    requires users[userId].id == userId
    requires Contains(events[eventId].participantes, userId)
    ensures RegisterForEvent(events, users, eventId, userId).Ok?
    ensures var s := RegisterForEvent(events, users, eventId, userId).value;
            Occurrences(s[eventId].participantes, userId) == Occurrences(events[eventId].participantes, userId) + 1
  {
    var ps := events[eventId].participantes;
    OccurrencesAppend(ps, [users[userId]], userId);
  }

  /** `updateEvent` can shrink the capacity below the current count: the
      stores start within capacity and end outside it. */
  lemma UpdateCanBreakCapacity()
    ensures exists events: EventStore, id: EventId, req: EventoRequest ::
              && WithinCapacity(events)
              && UpdateEvent(events, id, req).Ok?
              && !WithinCapacity(UpdateEvent(events, id, req).value.0)
  {
    var u := Usuario("u1", "ana", "hash", USER);
    var e := Evento("e1", LocalDate(0), "Conference", "Hall", [u], 10);
    var events := map["e1" := e];
    var req := EventoRequest("Conference", "Hall", LocalDate(0), 0);
    var s := UpdateEvent(events, "e1", req).value.0;
    assert |s["e1"].participantes| > s["e1"].maxParticipantes as int;
  }

  /** An update keeps the event equal, in the id-only sense, to what it was. */
  lemma UpdateKeepsIdentity(events: EventStore, id: EventId, req: EventoRequest)
    requires id in events
    ensures UpdateEvent(events, id, req).Ok?
    ensures EventoEquals(events[id], UpdateEvent(events, id, req).value.0[id])
  {
  }

  /** Registering a user who was not listed and then unregistering the same
      user returns the event store to exactly where it was. */
  lemma RegisterThenUnregisterAbsent(events: EventStore, users: UserStore, eventId: EventId, userId: UserId)
    requires RegisterForEvent(events, users, eventId, userId).Ok?
    requires users[userId].id == userId
    requires !Contains(events[eventId].participantes, userId)
    ensures var s := RegisterForEvent(events, users, eventId, userId).value;
            UnregisterFromEvent(s, users, eventId, userId) == Ok(events)
  {
    var e := events[eventId];
    var u := users[userId];
    IndexOfAppend(e.participantes, u, userId);
    RemoveAppendedAbsent(e.participantes, u);
    var s := RegisterForEvent(events, users, eventId, userId).value;
    assert s[eventId := e] == events;
  }

  /** When the user was already listed, the round trip removes the earlier
      entry instead: the list comes back as the same multiset, provided the
      stores are consistent. */
  lemma RegisterThenUnregisterPresent(events: EventStore, users: UserStore, eventId: EventId, userId: UserId)
    requires Consistent(events, users)
    requires RegisterForEvent(events, users, eventId, userId).Ok?
    requires Contains(events[eventId].participantes, userId)
    ensures var s := RegisterForEvent(events, users, eventId, userId).value;
            var r := UnregisterFromEvent(s, users, eventId, userId);
            && r.Ok?
            && r.value.Keys == events.Keys
            && (forall k :: k in events && k != eventId ==> r.value[k] == events[k])
            && multiset(r.value[eventId].participantes) == multiset(events[eventId].participantes)
  {
    var ps := events[eventId].participantes;
    var u := users[userId];
    var i := IndexOf(ps, userId);
    assert users[ps[i].id] == ps[i];
    RemoveAppendedPresent(ps, u);
    IndexOfAppend(ps, u, userId);
  }

  /** ... but not as the same list: an event listing `[a, b]` with room to
      spare lists `[b, a]` after `a` registers again and unregisters. */
  lemma RoundTripReordersDuplicate(events: EventStore, users: UserStore, eventId: EventId, a: Usuario, b: Usuario)
    requires eventId in events && events[eventId].participantes == [a, b]
    requires 2 < events[eventId].maxParticipantes
    requires a.id in users && users[a.id] == a && a.id != b.id
    ensures RegisterForEvent(events, users, eventId, a.id).Ok?
    ensures var reg := RegisterForEvent(events, users, eventId, a.id).value;
            && UnregisterFromEvent(reg, users, eventId, a.id).Ok?
            && UnregisterFromEvent(reg, users, eventId, a.id).value[eventId].participantes == [b, a]
  {
    var reg := RegisterForEvent(events, users, eventId, a.id).value;
    assert reg[eventId].participantes == [a, b, a];
    assert IndexOf([a, b, a], a.id) == 0;
  }

  /** Registration keeps the two stores consistent. */
  lemma RegisterKeepsConsistent(events: EventStore, users: UserStore, eventId: EventId, userId: UserId)
    requires Consistent(events, users) && UsersWellKeyed(users)
    ensures RegisterForEvent(events, users, eventId, userId).Ok? ==>
              Consistent(RegisterForEvent(events, users, eventId, userId).value, users)
  {
  }

  /** Unregistration keeps the two stores consistent. */
  lemma UnregisterKeepsConsistent(events: EventStore, users: UserStore, eventId: EventId, userId: UserId)
    requires Consistent(events, users)
    ensures UnregisterFromEvent(events, users, eventId, userId).Ok? ==>
              Consistent(UnregisterFromEvent(events, users, eventId, userId).value, users)
  {
  }

  /** One request of the workflow. */
  datatype Request =
    | Register(eventId: EventId, userId: UserId)
    | Unregister(eventId: EventId, userId: UserId)

  /** The event store after one request: a request that throws saves nothing. */
  function Step(events: EventStore, users: UserStore, req: Request): EventStore
  {
    var r := match req
      case Register(e, u) => RegisterForEvent(events, users, e, u)
      case Unregister(e, u) => UnregisterFromEvent(events, users, e, u);
    if r.Ok? then r.value else events
  }

  /** The event store after a sequence of requests, applied in order. */
  function Replay(events: EventStore, users: UserStore, reqs: seq<Request>): EventStore
    decreases |reqs|
  {
    if reqs == [] then events else Replay(Step(events, users, reqs[0]), users, reqs[1..])
  }

  /** Capacity is never exceeded, whatever requests arrive, as long as the
      stores start within capacity and no update intervenes. */
  lemma {:induction false} ReplayKeepsCapacity(events: EventStore, users: UserStore, reqs: seq<Request>)
    requires WithinCapacity(events)
    ensures WithinCapacity(Replay(events, users, reqs))
    decreases |reqs|
  {
    if reqs != [] {
      match reqs[0] {
        case Register(e, u) => RegisterPreservesCapacity(events, users, e, u);
        case Unregister(e, u) => UnregisterPreservesCapacity(events, users, e, u);
      }
      ReplayKeepsCapacity(Step(events, users, reqs[0]), users, reqs[1..]);
    }
  }

  /** The one-seat scenario: A gets the seat, B is turned away, A leaves,
      B gets the seat. */
  lemma OneSeatScenario()
    ensures
      var a := Usuario("a", "ana", "h1", USER);
      var b := Usuario("b", "bia", "h2", USER);
      var users := map["a" := a, "b" := b];
      var s0 := map["e" := Evento("e", LocalDate(0), "Talk", "Room", [], 1)];
      var r1 := RegisterForEvent(s0, users, "e", "a");
      && r1.Ok? && r1.value["e"].participantes == [a]
      && RegisterForEvent(r1.value, users, "e", "b") == Err(EventFull)
      && var r3 := UnregisterFromEvent(r1.value, users, "e", "a");
      && r3.Ok? && r3.value["e"].participantes == []
      && var r4 := RegisterForEvent(r3.value, users, "e", "b");
      && r4.Ok? && r4.value["e"].participantes == [b]
  {
  }
}

=== FILE: usuario_controller.dfy ===
/** `UsuarioController`: account registration and lookups. */
module UsuarioController {
  import opened Common
  import opened Model
  import opened Http
  import S = UsuarioService

  /** `login` (the handler of `POST /user/register`): 201 with no body and a
      Location ending with the new user's id. */
  function RegisterUser(users: UserStore, req: RegistroRequest, newId: UserId, encode: string -> string,
                        requestUri: string)
    : (r: Result<(UserStore, ResponseEntity<()>), S.UserError>)
    requires newId !in users
    ensures r.Ok? <==> req.role.Some?
    ensures r.Err? ==> r.error == S.SaveUser(users, req, newId, encode).error
    ensures r.Ok? ==> r.value.1.status == CREATED && r.value.1.body.None?
    ensures r.Ok? ==> r.value.1.location.Some? && EndsWithSegment(r.value.1.location.value, newId)
    ensures r.Ok? ==> r.value.0 == S.SaveUser(users, req, newId, encode).value.0
    ensures r.Ok? ==> newId in r.value.0 && r.value.0[newId].password == encode(req.password)
    ensures r.Ok? ==> r.value.0[newId].username == req.username && r.value.0[newId].role == req.role.value
  {
    match S.SaveUser(users, req, newId, encode)
    case Err(e) => Err(e)
    case Ok((s, saved)) => Ok((s, Created(requestUri, saved.id, None)))
  }

  /** `getEventById` of this controller (it looks up a user): 200 with the
      user's response when stored, 404 otherwise. */
  function GetUserById(users: UserStore, id: UserId): (r: ResponseEntity<UsuarioResponse>)
    ensures r.status == OK <==> id in users
    ensures r.status == NOT_FOUND <==> id !in users
    ensures r.status == OK ==> r.body == Some(S.ConvertToDTO(users[id]))
    ensures r.body == S.FindById(users, id) && r.location.None?
  {
    OkOrNotFound(S.FindById(users, id))
  }

  /** `getUsers`: 200 with one response per stored user. */
  method GetUsers(users: UserStore) returns (r: ResponseEntity<seq<UsuarioResponse>>)
    ensures r.status == OK && r.body.Some? && |r.body.value| == |users|
    ensures forall id :: id in users ==> S.ConvertToDTO(users[id]) in r.body.value
    ensures forall i :: 0 <= i < |r.body.value| ==> RoleValueOf(r.body.value[i].role).Some?
  {
    var all := S.FindAll(users);
    r := ResponseEntity(OK, Some(all), None);
  }
}

=== FILE: usuario_service.dfy ===
/** `UsuarioService`: account creation and lookups over the user repository.
    The password encoder is an opaque function supplied by the caller. */
module UsuarioService {
  import opened Common
  import opened Model
  import Listing

  /** `UsuarioRole.valueOf` rejecting the text of a null role. */
  datatype UserError = IllegalArgumentException(message: string)

  /** `convertToDTO`: id, username and the role's name; the password never
      leaves the service. */
  function ConvertToDTO(u: Usuario): (r: UsuarioResponse)
    ensures r.id == u.id && r.username == u.username
    ensures RoleValueOf(r.role) == Some(u.role)
  {
    RoleNameRoundTrip(u.role);
    UsuarioResponse(u.id, u.username, RoleName(u.role))
  }

  /** `saveUser`: the role goes through `valueOf(String.valueOf(role))`, so a
      null role is rejected; otherwise the user is stored under a fresh id
      with the encoded password. */
  function SaveUser(users: UserStore, req: RegistroRequest, newId: UserId, encode: string -> string)
    : (r: Result<(UserStore, UsuarioResponse), UserError>)
    requires newId !in users
    ensures r.Ok? <==> req.role.Some?
    ensures r.Err? ==> r.error == IllegalArgumentException("No enum constant org.evento.model.UsuarioRole.null")
    ensures r.Ok? ==>
              var (s, resp) := r.value;
              && s.Keys == users.Keys + {newId}
              && (forall id :: id in users ==> s[id] == users[id])
              && s[newId] == Usuario(newId, req.username, encode(req.password), req.role.value)
              && resp == UsuarioResponse(newId, req.username, RoleName(req.role.value))
  {
    var text := RoleText(req.role);
    match RoleValueOf(text)
    case None =>
      Err(IllegalArgumentException("No enum constant org.evento.model.UsuarioRole." + text))
    case Some(role) =>
      RoleNameRoundTrip(role);
      var u := Usuario(newId, req.username, encode(req.password), role);
      Ok((users[newId := u], ConvertToDTO(u)))
  }

  /** `findById`: an absent id is an empty `Optional`, not an exception. */
  function FindById(users: UserStore, id: UserId): (r: Option<UsuarioResponse>)
    ensures r.None? <==> id !in users
    ensures r.Some? ==> r.value == ConvertToDTO(users[id])
  {
    if id in users then Some(ConvertToDTO(users[id])) else None
  }

  /** Stored under its own id, a found user's response carries the id asked for. */
  lemma FindByIdKeepsId(users: UserStore, id: UserId)
    requires UsersWellKeyed(users)
    ensures FindById(users, id).Some? ==> FindById(users, id).value.id == id
  {
  }

  /** Looking up a just-registered user gives the response the registration
      returned, and registering keeps every user stored under its own id. */
  lemma FindAfterSave(users: UserStore, req: RegistroRequest, newId: UserId, encode: string -> string)
    requires newId !in users && req.role.Some?
    ensures SaveUser(users, req, newId, encode).Ok?
    ensures FindById(SaveUser(users, req, newId, encode).value.0, newId) == Some(SaveUser(users, req, newId, encode).value.1)
    ensures UsersWellKeyed(users) ==> UsersWellKeyed(SaveUser(users, req, newId, encode).value.0)
  {
  }

  /** `findAll`: one response per stored user. */
  method FindAll(users: UserStore) returns (rs: seq<UsuarioResponse>)
    ensures |rs| == |users|
    ensures forall i :: 0 <= i < |rs| ==> exists id :: id in users && rs[i] == ConvertToDTO(users[id])
    ensures forall id :: id in users ==> ConvertToDTO(users[id]) in rs
  {
    var keys;
    keys, rs := Listing.ListValues(users, ConvertToDTO);
    forall id | id in users
      ensures ConvertToDTO(users[id]) in rs
    {
      var i :| 0 <= i < |keys| && keys[i] == id;
      assert rs[i] == ConvertToDTO(users[id]);
    }
  }
}
